=== FILE: README.md ===
# News translate-and-summarise pipeline, modelled in Dafny

The `/news` endpoint fetches a page of headline articles from a news feed.
It decides per article which text to translate, translates the title and that
body into Korean, summarises the translated body, and answers with the
articles that went through. There are two versions of the handler:

- `backend/app.py`, a sequential Flask handler;
- `backend_Quart_version/app.py`, a concurrent Quart handler.

Both apply the same two rules, and this model covers both of them.

- **Body normalisation** (`Normalizer`). The handler starts from `content`;
  absent, `null` and empty content all read as `""`. If the content holds the
  provider's `"[+"` truncation marker, or is shorter than 200 characters, it is
  replaced by `description + " " + title`, where an absent key reads as `""`.
  The result is then cut to its first 4900 characters. The model has one spec
  function, `Body`, and one step-by-step method, `NormalizeContent`, that
  reassigns the raw content as the handlers do.
- **Enrichment with per-article failure isolation**. `Enrichment` states what a
  complete record is. `FlaskBackend` models the sequential loop: `GetNews` is a
  `for` loop that appends to `results`, and `Attempt` is its `try` block.
  `QuartBackend` models `process_article`, the `gather` and the falsy filter as
  functions. `Batch` holds the collection step both handlers share: keep the
  records, in order, and drop the failures.

Modelling choices:

- An article is a dictionary. Every key is `Option<Value>`: `None` means the key
  is absent, and `Some(Null)` means the key holds JSON `null`.
- The translator and the summariser are the outside services. They are modelled
  as functions `Value -> Reply` and `string -> Reply`. A `Reply` is either
  `Text(s)` or `Raised`, which stands for any exception of the call.
- The calls an article makes to the translate and summarize wrappers are
  recorded as a trace (`Run.calls`). One entry is one wrapper call, whatever
  HTTP requests or client-side retries it makes inside. This
  lets contracts state which calls happen and in what order.
- The HTTP fetch of the feed is replaced by its result, the input
  `seq<Article>`.
- Strings are sequences of Dafny `char`, which are Unicode scalar values.
  Python's `len` and slicing count code points, which coincide with scalar
  values except for lone surrogates; see "## Left out".

Behaviours of the code that the contracts make explicit:

- **A `null` description or title can fail the whole request.** Normalisation
  is not total. When the fallback is taken and `description` or `title` holds
  `null`, the concatenation raises `TypeError`. That line is outside the `try`
  in both handlers, so the exception escapes. The Flask loop aborts. The Quart
  `gather` re-raises. Either way the request fails, which is
  `Response.ServerError` here. An absent key never raises: it reads as `""`.
- **A missing image drops the article.** `article["image"]` raises `KeyError`
  when the key is absent, inside the `try`, so the article is dropped even
  when every call answered. The same holds for `url`.
- **Both handlers keep input order.** The sequential loop appends in order,
  and `asyncio.gather` returns results in argument order.
- **Quart still translates the body after a title failure.** The Quart
  handler issues both translations together once the `title` key is found,
  so the body is translated even when the title translation raises. Only the
  summariser is held back. The Flask handler stops at the first failing call.

## Model

| member | source | states |
|---|---|---|
| `Normalizer.ContentText` | backend/app.py:19 | the content reads as "" exactly when it is absent, `null` or empty, and is the content's own text otherwise |
| `Normalizer.FieldText` | backend/app.py:23 | `article.get(key, "")` as an operand of `+`: fails exactly when the key holds `null`; an absent key reads as "" |
| `Normalizer.FallbackText` | backend/app.py:23 | the concatenation raises exactly when description or title holds `null`; otherwise it is the description, one space, then the title |
| `Normalizer.Truncate` | backend/app.py:26-27 | the result is the prefix of the input of length min(len, 4900); text that already fits is returned unchanged |
| `Normalizer.Body` | backend_Quart_version/app.py:18-22 | every normalised body that does not raise is at most 4900 characters long |
| `Normalizer.NormalizeContent` | backend/app.py:19-27 | the step-by-step reassignment of the raw content yields exactly the normalised body, or the concatenation's exception |
| `Normalizer.FallbackBody` | backend/app.py:22-23 | when the content has `"[+"` or is under 200 characters, the body is the longest prefix of `description + " " + title` that fits (at most 4900 characters); absent keys read as "" |
| `Normalizer.FallbackIgnoresContent` | backend/app.py:22-23 | two articles whose contents are both discarded, with equal description and title, get the same body whatever their contents held |
| `Normalizer.ContentBody` | backend/app.py:19-27 | content of 200 characters or more without `"[+"` is kept: the body is its prefix of length min(len, 4900), and the content itself when it fits |
| `Normalizer.MissingContentFallsBack` | backend/app.py:19-23 | absent, `null` or empty content always takes the fallback text |
| `Normalizer.BodyRaisesIff` | backend/app.py:19-23 | normalisation raises if and only if the fallback is taken and description or title holds `null` |
| `Normalizer.ShortContentExample` | backend/app.py:22-23 | content "Short" with description "Desc text" and title "Title" gives the body "Desc text Title" |
| `Normalizer.LongContentExample` | backend/app.py:26-27 | a 5000-character content without the marker gives its first 4900 characters |
| `Enrichment.RecordIsDetermined` | backend/app.py:34-40 | at most one record matches an article: title, url, image, translation and summary are fixed by the article and the services |
| `Enrichment.RecordExistsIff` | backend/app.py:29-40 | a full record exists if and only if the title, url and image keys are present and all three calls answer |
| `Batch.Collect` | backend_Quart_version/app.py:42-45 | the JSON list is answered exactly when no article's exception escaped, and it has no more records than outcomes; its contents are given by `Batch.SurvivorPositions` |
| `Batch.Survivors` | backend_Quart_version/app.py:43 | the filtered list is never longer than the gathered results |
| `Batch.SurvivorsAppend` | backend/app.py:34 | filtering distributes over concatenation, so appending one article's outcome appends its record, if any |
| `Batch.SurvivorPositions` | backend_Quart_version/app.py:41-43 | the records are exactly those of the enriched outcomes, at strictly increasing positions, and none is missing |
| `Batch.AllSurviveIff` | backend_Quart_version/app.py:43 | as many records as outcomes if and only if every outcome is enriched |
| `Batch.EmptyBatch` | backend/app.py:16-18 | no outcomes give an empty JSON list |
| `Batch.DroppedIsInvisible` | backend/app.py:41-43 | a dropped outcome leaves the response exactly as if it were not in the batch |
| `FlaskBackend.TryEnrich` | backend/app.py:29-43 | a record exists if and only if the title, url and image keys are present and all three calls answer, and it is then the article's full record; otherwise no record, never a partial one |
| `FlaskBackend.TryEnrichCalls` | backend/app.py:29-32 | every call except the last answered, so nothing runs after a failure; the summariser sees only the translated body, after both translations answered; no call without a title key; at most three calls |
| `FlaskBackend.TryEnrichCallsMade` | backend/app.py:29-32 | with a title key the title is translated first; the body is translated exactly when the title translation answered; the third call is made exactly when both answered, and it is the summariser on the translated body; a record means all three calls were made |
| `FlaskBackend.ArticleRun` | backend/app.py:18-43 | an iteration escapes the loop if and only if normalisation raised, and then it makes no call |
| `FlaskBackend.Attempt` | backend/app.py:29-43 | the `try` block's statements return the record and calls of the `try`-block specification |
| `FlaskBackend.GetNews` | backend/app.py:15-45 | the loop answers with the batch response of the articles' outcomes; on success the calls are every article's calls in order; on a server error they are the calls of the articles before the first one whose normalisation raised |
| `QuartBackend.TryEnrich` | backend_Quart_version/app.py:24-39 | a record exists if and only if the title, url and image keys are present and all three calls answer, and it is then the article's full record; otherwise `None`, never a partial record |
| `QuartBackend.TryEnrichCalls` | backend_Quart_version/app.py:24-29 | with a title key both translations are issued first, whatever they answer; the third call is made exactly when both answered, and it is the summariser on the translated body; no call without a title key; a record means all three calls were made |
| `QuartBackend.ProcessArticle` | backend_Quart_version/app.py:17-39 | raises if and only if normalisation raises; returns a record if and only if every step succeeds, and that record is the full record of the article; otherwise `None` |
| `QuartBackend.Gather` | backend_Quart_version/app.py:41-42 | one gathered result per article; each is that article's own result (`QuartBackend.OutcomeIsOwn`) |
| `QuartBackend.GatherAborts` | backend_Quart_version/app.py:17-22 | a gathered result is an escaped exception exactly when that article's normalisation raised |
| `QuartBackend.GetNews` | backend_Quart_version/app.py:41-45 | the request fails exactly when some article's normalisation raised; otherwise the list has no more records than articles, and `QuartBackend.RecordsInInputOrder` and `QuartBackend.RecordCount` give its contents |
| `QuartBackend.SameOutcome` | backend_Quart_version/app.py:17-39 | `process_article` ends each article exactly as the sequential loop's iteration does |
| `QuartBackend.HandlersAgree` | backend_Quart_version/app.py:41-45 | the concurrent handler's response equals the sequential handler's for every page and every behaviour of the services |
| `QuartBackend.OutcomeIsOwn` | backend_Quart_version/app.py:41-42 | an article's gathered result depends only on that article, not on its position or its neighbours |
| `QuartBackend.RecordsInInputOrder` | backend_Quart_version/app.py:41-43 | the response lists the full records of the articles that went through, at strictly increasing input positions, with none missing |
| `QuartBackend.RecordCount` | backend_Quart_version/app.py:41-43 | no more records than articles, and equally many if and only if every article goes through |
| `QuartBackend.EmptyPage` | backend_Quart_version/app.py:41-45 | an empty page gives an empty list |
| `QuartBackend.GatherWithoutAt` | backend_Quart_version/app.py:41-42 | leaving one article out moves the results after it one place forward, each unchanged |
| `QuartBackend.GatherWithout` | backend_Quart_version/app.py:41-42 | removing an article from the page removes only its gathered result |
| `QuartBackend.DroppedArticleIsInvisible` | backend_Quart_version/app.py:37-43 | an article whose `try` failed leaves the response exactly as if it had not been fetched |
| `QuartBackend.MissingUrlOrImageDrops` | backend_Quart_version/app.py:30-39 | a missing url or image key drops the article |

## Left out

- The feed fetch is left out. `fetch_news` in `backend_Quart_version/news.py` is an HTTP call to GNews, and its failure fails the request. The model takes its result as the input sequence. The `fetch_news` module of the Flask backend is not part of this model.
- The DeepL and OpenAI wrappers (`translate.py`, `summarize.py` in both backends) are left out. They become the `Services` functions: request building, JSON field extraction and their errors are all folded into `Reply.Raised`.
- The services are modelled as deterministic functions of their argument. The same text gets the same answer whenever it is sent, whatever the timing.
- Flask and Quart routing, parsing of `country` and `page`, CORS, `jsonify` and the `print` logging of dropped articles are left out.
- The concurrency of `asyncio.gather` and the shared `aiohttp` session are left out. The two translations of an article are recorded in argument order. The articles are processed as an in-order map, which is what `gather` returns.
- The concurrent handler's outbound calls are not modelled at the level of a whole page. Once one `process_article` raises, the other articles' tasks keep running as the request fails. Only the response is stated for the page, and the calls are stated per article.
- Translated text and summaries are taken to be strings. A service answering `null` or a non-string JSON value is not modelled.
- Article values other than strings and `null` are not modelled, for example a numeric `content`.
- Lone surrogate code points (a JSON `\udXXX` escape with no partner) are not modelled: Dafny's `char` holds only Unicode scalar values, so a feed text holding one has no counterpart here.
- QuartBackend.HandlersAgree: the two backends' service wrappers are different code. The Flask translator uses `requests` and its summariser the OpenAI client. The Quart versions send raw `aiohttp` requests. The equivalence is proved for one `Services` value shared by both handlers, so it assumes that both backends' translate and summarize wrappers give the same reply to the same argument.
- Calls that never return are not modelled. Every translate or summarize call is assumed to answer or raise. The translator's `requests.post` sets no timeout, so a call that never returns stalls the whole request instead of dropping one article. In the Flask loop every later article waits. In Quart, `asyncio.gather` holds the response until the slowest call ends. The isolation and response properties therefore hold only for requests whose calls all end.

=== FILE: batch.dfy ===
/** Collecting the per-article outcomes into the handler's response: the
    records of the articles that made it, in input order, with the failed
    ones silently left out; an exception that escaped an article's `try`
    fails the whole request. */
module Batch {
  import opened News

  /** How the processing of one article ends: with its record, dropped by
      the per-article `except`, or with an exception outside the `try` that
      escapes to the request. */
  datatype Outcome = Enriched(record: Record) | Dropped | Aborted

  /** What the /news handler answers: the JSON list of records, or a server
      error when an exception escaped the handler. */
  datatype Response = Json(records: seq<Record>) | ServerError

  /** `[r for r in processed if r]`: the records of the enriched outcomes,
      in order. */
  function Survivors(outs: seq<Outcome>): (rs: seq<Record>)
    ensures |rs| <= |outs|
  {
    if |outs| == 0 then []
    else (if outs[0].Enriched? then [outs[0].record] else []) + Survivors(outs[1..])
  }

  predicate AnyAborted(outs: seq<Outcome>)
  {
    exists i :: 0 <= i < |outs| && outs[i].Aborted?
  }

  /** The response for a batch of outcomes. */
  function Collect(outs: seq<Outcome>): (r: Response)
    ensures r.Json? <==> forall i :: 0 <= i < |outs| ==> !outs[i].Aborted?
    ensures r.Json? ==> |r.records| <= |outs|
  {
    if AnyAborted(outs) then ServerError else Json(Survivors(outs))
  }

  /** Filtering distributes over concatenation; appending one outcome at the
      end appends its record, if any. */
  lemma {:induction false} SurvivorsAppend(xs: seq<Outcome>, ys: seq<Outcome>)
    ensures Survivors(xs + ys) == Survivors(xs) + Survivors(ys)
    decreases |xs|
  {
    if |xs| == 0 {
      assert xs + ys == ys;
    } else {
      var head := if xs[0].Enriched? then [xs[0].record] else [];
      assert (xs + ys)[0] == xs[0];
      assert (xs + ys)[1..] == xs[1..] + ys;
      SurvivorsAppend(xs[1..], ys);
      assert Survivors(xs + ys) == head + (Survivors(xs[1..]) + Survivors(ys));
      assert Survivors(xs) == head + Survivors(xs[1..]);
    }
  }

  /** `idx[k]` is the position in `outs` of the outcome that gave `rs[k]`. */
  predicate PositionsOf(idx: seq<nat>, outs: seq<Outcome>, rs: seq<Record>)
  {
    |idx| == |rs| &&
    forall k :: 0 <= k < |idx| ==> idx[k] < |outs| && outs[idx[k]] == Enriched(rs[k])
  }

  /** Every enriched outcome's position is listed in `idx`. */
  predicate CoversEnriched(idx: seq<nat>, outs: seq<Outcome>)
  {
    forall i :: 0 <= i < |outs| && outs[i].Enriched? ==> i in idx
  }

  predicate StrictlyIncreasing(idx: seq<nat>)
  {
    forall k, l :: 0 <= k < l < |idx| ==> idx[k] < idx[l]
  }

  /** Positions into `outs[1..]` moved by one are positions into `outs`. */
  lemma ShiftPositions(outs: seq<Outcome>, rest: seq<nat>) returns (shifted: seq<nat>)
    requires |outs| > 0
    requires PositionsOf(rest, outs[1..], Survivors(outs[1..]))
    requires StrictlyIncreasing(rest) && CoversEnriched(rest, outs[1..])
    ensures PositionsOf(shifted, outs, Survivors(outs[1..]))
    ensures StrictlyIncreasing(shifted)
    ensures forall k :: 0 <= k < |shifted| ==> shifted[k] > 0
    ensures forall i :: 1 <= i < |outs| && outs[i].Enriched? ==> i in shifted
  {
    var tail := outs[1..];
    shifted := seq(|rest|, k requires 0 <= k < |rest| => rest[k] + 1);
    forall k | 0 <= k < |shifted|
      ensures shifted[k] < |outs| && outs[shifted[k]] == Enriched(Survivors(tail)[k])
    {
      assert outs[shifted[k]] == tail[rest[k]];
    }
    ShiftedCovers(outs, rest, shifted);
  }

  /** Every enriched outcome after the first is listed once the positions
      into `outs[1..]` are moved by one. */
  lemma ShiftedCovers(outs: seq<Outcome>, rest: seq<nat>, shifted: seq<nat>)
    requires |outs| > 0 && CoversEnriched(rest, outs[1..])
    requires |shifted| == |rest| && forall k :: 0 <= k < |rest| ==> shifted[k] == rest[k] + 1
    ensures forall i :: 1 <= i < |outs| && outs[i].Enriched? ==> i in shifted
  {
    forall i | 1 <= i < |outs| && outs[i].Enriched?
      ensures i in shifted
    {
      assert outs[1..][i - 1] == outs[i];
      var k :| 0 <= k < |rest| && rest[k] == i - 1;
      assert shifted[k] == i;
    }
  }

  /** An enriched first outcome is listed at position 0, ahead of the others. */
  lemma PrependPosition(outs: seq<Outcome>, shifted: seq<nat>) returns (idx: seq<nat>)
    requires |outs| > 0 && outs[0].Enriched?
    requires PositionsOf(shifted, outs, Survivors(outs[1..]))
    requires StrictlyIncreasing(shifted)
    requires forall k :: 0 <= k < |shifted| ==> shifted[k] > 0
    requires forall i :: 1 <= i < |outs| && outs[i].Enriched? ==> i in shifted
    ensures PositionsOf(idx, outs, Survivors(outs))
    ensures StrictlyIncreasing(idx)
    ensures CoversEnriched(idx, outs)
  {
    idx := [0] + shifted;
    var rs := Survivors(outs);
    assert rs == [outs[0].record] + Survivors(outs[1..]);
    forall k | 0 <= k < |idx|
      ensures idx[k] < |outs| && outs[idx[k]] == Enriched(rs[k])
    {
      if k > 0 {
        assert idx[k] == shifted[k - 1] && rs[k] == Survivors(outs[1..])[k - 1];
      }
    }
    forall k, l | 0 <= k < l < |idx|
      ensures idx[k] < idx[l]
    {
      assert idx[l] == shifted[l - 1];
      if k > 0 {
        assert idx[k] == shifted[k - 1];
      }
    }
    forall i | 0 <= i < |outs| && outs[i].Enriched?
      ensures i in idx
    {
      if i > 0 {
        assert i in shifted;
      }
    }
  }

  /** The response holds exactly the enriched records, in input order: each
      record sits at a strictly increasing position of the outcomes, and no
      enriched outcome is missing. */
  lemma {:induction false} SurvivorPositions(outs: seq<Outcome>) returns (idx: seq<nat>)
    ensures PositionsOf(idx, outs, Survivors(outs))
    ensures StrictlyIncreasing(idx)
    ensures CoversEnriched(idx, outs)
    decreases |outs|
  {
    if |outs| == 0 {
      return [];
    }
    var rest := SurvivorPositions(outs[1..]);
    var shifted := ShiftPositions(outs, rest);
    if outs[0].Enriched? {
      idx := PrependPosition(outs, shifted);
    } else {
      idx := shifted;
      assert Survivors(outs) == Survivors(outs[1..]);
    }
  }

  /** No more records than outcomes, and exactly as many when every outcome
      is enriched. */
  lemma {:induction false} AllSurviveIff(outs: seq<Outcome>)
    ensures |Survivors(outs)| == |outs| <==> forall i :: 0 <= i < |outs| ==> outs[i].Enriched?
    decreases |outs|
  {
    if outs != [] {
      AllSurviveIff(outs[1..]);
      if forall i :: 0 <= i < |outs| ==> outs[i].Enriched? {
        assert forall i :: 0 <= i < |outs[1..]| ==> outs[1..][i] == outs[i + 1];
      } else if outs[0].Enriched? {
        var i :| 0 <= i < |outs| && !outs[i].Enriched?;
        assert outs[1..][i - 1] == outs[i];
      }
    }
  }

  /** An empty batch gives an empty list. */
  lemma EmptyBatch()
    ensures Collect([]) == Json([])
  {
  }

  /** Isolation: a dropped outcome leaves the response exactly as if its
      article had not been in the batch. */
  lemma DroppedIsInvisible(outs: seq<Outcome>, k: nat)
    requires k < |outs| && outs[k].Dropped?
    ensures Collect(outs) == Collect(outs[..k] + outs[k + 1..])
  {
    var rest := outs[..k] + outs[k + 1..];
    assert outs == outs[..k] + [outs[k]] + outs[k + 1..];
    SurvivorsAppend(outs[..k] + [outs[k]], outs[k + 1..]);
    SurvivorsAppend(outs[..k], [outs[k]]);
    SurvivorsAppend(outs[..k], outs[k + 1..]);
    assert Survivors([outs[k]]) == [];
    if AnyAborted(outs) {
      var i :| 0 <= i < |outs| && outs[i].Aborted?;
      if i < k {
        assert rest[i] == outs[i];
      } else {
        assert rest[i - 1] == outs[i];
      }
    }
    if AnyAborted(rest) {
      var i :| 0 <= i < |rest| && rest[i].Aborted?;
      if i < k {
        assert rest[i] == outs[i];
      } else {
        assert rest[i] == outs[i + 1];
      }
    }
  }
}

=== FILE: enrichment.dfy ===
/** What the `try` block of either handler must produce for one article:
    a record only when every step succeeded, built from the step results,
    and calls to the summariser only on a successfully translated body. */
module Enrichment {
  import opened News

  /** Every step of the `try` block succeeds for article `a` with normalised
      body `body`: the title, url and image keys are present, both
      translations answer, and the summariser answers on the translated body. */
  predicate CanComplete(a: Article, body: string, svc: Services)
  {
    a.title.Some? && a.url.Some? && a.image.Some?
    && svc.translate(a.title.value).Text?
    && svc.translate(Str(body)).Text?
    && svc.summarize(svc.translate(Str(body)).text).Text?
  }

  /** `rec` is the full record of `a`: its title is the translation of the
      article's title, url and image are copied from the article, its body is
      the translation of `body` and its summary is that of the translated body. */
  predicate IsRecordFor(rec: Record, a: Article, body: string, svc: Services)
  {
    a.title.Some?
    && svc.translate(a.title.value) == Text(rec.title)
    && a.url == Some(rec.url)
    && a.image == Some(rec.image)
    && svc.translate(Str(body)) == Text(rec.translated)
    && svc.summarize(rec.translated) == Text(rec.summary)
  }

  /** A call trace summarises only after the title and the body were both
      translated successfully, and only the translated body. */
  predicate SummarizesTranslatedBody(calls: seq<Call>, a: Article, body: string, svc: Services)
  {
    forall k :: 0 <= k < |calls| && calls[k].Summarize? ==>
      a.title.Some?
      && Translate(a.title.value) in calls[..k]
      && Translate(Str(body)) in calls[..k]
      && svc.translate(a.title.value).Text?
      && svc.translate(Str(body)).Text?
      && calls[k].input == svc.translate(Str(body)).text
  }

  /** At most one record fits an article: the record is determined by the
      article, its body and the services. */
  lemma RecordIsDetermined(r1: Record, r2: Record, a: Article, body: string, svc: Services)
    requires IsRecordFor(r1, a, body, svc) && IsRecordFor(r2, a, body, svc)
    ensures r1 == r2
  {
  }

  /** An article has a full record exactly when every step succeeds. */
  lemma RecordExistsIff(a: Article, body: string, svc: Services)
    ensures CanComplete(a, body, svc) <==> exists rec :: IsRecordFor(rec, a, body, svc)
  {
    if CanComplete(a, body, svc) {
      var translated := svc.translate(Str(body)).text;
      var rec := Record(svc.translate(a.title.value).text, a.url.value, a.image.value,
                        translated, svc.summarize(translated).text);
      assert IsRecordFor(rec, a, body, svc);
    }
  }
}

=== FILE: flask_backend.dfy ===
/** The sequential /news handler: one article after the other, normalise
    the body, then inside a `try` translate the title, translate the body,
    summarise the translated body and append the record; any exception in
    the `try` skips the article and the loop goes on with the next one. */
module FlaskBackend {
  import opened News
  import opened Normalizer
  import opened Enrichment
  import opened Batch

  /** The `try` block for one article with normalised body `body`: the
      record, or `None` when a step raised, with the calls made. */
  function TryEnrich(a: Article, body: string, svc: Services): (r: Run<Option<Record>>)
    ensures r.value.Some? <==> CanComplete(a, body, svc)
    ensures r.value.Some? ==> IsRecordFor(r.value.value, a, body, svc)
  {
    if a.title.None? then Run(None, [])
    else
      var title := svc.translate(a.title.value);
      var c1 := [Translate(a.title.value)];
      if title.Raised? then Run(None, c1)
      else
        var translated := svc.translate(Str(body));
        var c2 := c1 + [Translate(Str(body))];
        if translated.Raised? then Run(None, c2)
        else
          var summary := svc.summarize(translated.text);
          var c3 := c2 + [Summarize(translated.text)];
          if summary.Raised? || a.url.None? || a.image.None? then Run(None, c3)
          else Run(Some(Record(title.text, a.url.value, a.image.value, translated.text, summary.text)), c3)
  }

  /** The calls of the `try` block: each call is made only once the previous
      one answered, so nothing runs after a failure; the summariser only sees
      the translated body, after both translations answered; without a title
      key nothing is called. */
  lemma TryEnrichCalls(a: Article, body: string, svc: Services)
    ensures var calls := TryEnrich(a, body, svc).calls;
      SummarizesTranslatedBody(calls, a, body, svc)
      && (forall k :: 0 <= k < |calls| - 1 ==> ReplyTo(calls[k], svc).Text?)
      && (a.title.None? ==> calls == [])
      && |calls| <= 3
  {
  }

  /** The calls the `try` block does make: with a title key the title is
      translated first, the body next exactly when the title answered, and
      the summariser last exactly when both answered; a record means all
      three calls were made. */
  lemma TryEnrichCallsMade(a: Article, body: string, svc: Services)
    ensures var calls := TryEnrich(a, body, svc).calls;
      a.title.Some? ==>
        |calls| >= 1 && calls[0] == Translate(a.title.value)
        && (|calls| >= 2 <==> svc.translate(a.title.value).Text?)
        && (|calls| >= 2 ==> calls[1] == Translate(Str(body)))
        && (|calls| == 3 <==> svc.translate(a.title.value).Text? && svc.translate(Str(body)).Text?)
        && (|calls| == 3 ==> calls[2] == Summarize(svc.translate(Str(body)).text))
    ensures TryEnrich(a, body, svc).value.Some? ==> |TryEnrich(a, body, svc).calls| == 3
  {
  }

  /** How one loop iteration ends, with the calls it made. */
  function ArticleRun(a: Article, svc: Services): (r: Run<Outcome>)
    ensures r.value.Aborted? <==> Body(a).None?
    ensures r.value.Aborted? ==> r.calls == []
  {
    match Body(a)
    case None => Run(Aborted, [])
    case Some(body) =>
      var r := TryEnrich(a, body, svc);
      Run(if r.value.Some? then Enriched(r.value.value) else Dropped, r.calls)
  }

  /** The outcome of every article of the batch. */
  function Outcomes(articles: seq<Article>, svc: Services): seq<Outcome>
  {
    seq(|articles|, i requires 0 <= i < |articles| => ArticleRun(articles[i], svc).value)
  }

  /** The calls made for the given articles, one article after the other. */
  ghost function Trace(articles: seq<Article>, svc: Services): seq<Call>
    decreases |articles|
  {
    if |articles| == 0 then []
    else Trace(articles[..|articles| - 1], svc) + ArticleRun(articles[|articles| - 1], svc).calls
  }

  /** The `try` block as the handler runs it: each step runs only once the
      previous one answered, and the first exception ends the attempt. */
  method Attempt(article: Article, rawContent: string, svc: Services)
    returns (record: Option<Record>, ghost calls: seq<Call>)
    ensures Run(record, calls) == TryEnrich(article, rawContent, svc)
  {
    calls := [];
    if article.title.None? {
      return None, calls;
    }
    var translatedTitle := svc.translate(article.title.value);
    calls := calls + [Translate(article.title.value)];
    if translatedTitle.Raised? {
      return None, calls;
    }
    var translatedContent := svc.translate(Str(rawContent));
    calls := calls + [Translate(Str(rawContent))];
    if translatedContent.Raised? {
      return None, calls;
    }
    var summary := svc.summarize(translatedContent.text);
    calls := calls + [Summarize(translatedContent.text)];
    if summary.Raised? || article.url.None? || article.image.None? {
      return None, calls;
    }
    record := Some(Record(translatedTitle.text, article.url.value, article.image.value,
                          translatedContent.text, summary.text));
  }

  /** No article before position `n` raised outside its `try`. */
  predicate NoneAbortedBefore(articles: seq<Article>, svc: Services, n: nat)
    requires n <= |articles|
  {
    forall j :: 0 <= j < n ==> !ArticleRun(articles[j], svc).value.Aborted?
  }

  /** Article `k` is the first whose normalisation raised. */
  predicate FirstAbortAt(articles: seq<Article>, svc: Services, k: nat)
  {
    k < |articles| && ArticleRun(articles[k], svc).value.Aborted? && NoneAbortedBefore(articles, svc, k)
  }

  /** The trace of one more article is extended by that article's calls. */
  lemma TraceStep(articles: seq<Article>, svc: Services, i: nat)
    requires i < |articles|
    ensures Trace(articles[..i + 1], svc) == Trace(articles[..i], svc) + ArticleRun(articles[i], svc).calls
  {
    assert articles[..i + 1][..i] == articles[..i];
  }

  /** The records of one more article are extended by that article's record. */
  lemma SurvivorsStep(articles: seq<Article>, svc: Services, i: nat)
    requires i < |articles|
    ensures Survivors(Outcomes(articles, svc)[..i + 1])
      == Survivors(Outcomes(articles, svc)[..i])
         + (if ArticleRun(articles[i], svc).value.Enriched? then [ArticleRun(articles[i], svc).value.record] else [])
  {
    var outs := Outcomes(articles, svc);
    assert outs[..i + 1] == outs[..i] + [outs[i]];
    SurvivorsAppend(outs[..i], [outs[i]]);
    assert Survivors([outs[i]]) == if outs[i].Enriched? then [outs[i].record] else [];
  }

  /** The loop iteration of an article whose body was normalised ends as
      its `try` block does, with that block's calls. */
  lemma ProcessedRun(a: Article, svc: Services, body: string, record: Option<Record>, calls: seq<Call>)
    requires Body(a) == Some(body)
    requires Run(record, calls) == TryEnrich(a, body, svc)
    ensures ArticleRun(a, svc) == Run(if record.Some? then Enriched(record.value) else Dropped, calls)
  {
  }

  /** An article whose normalisation did not raise keeps the loop going. */
  lemma NoneAbortedStep(articles: seq<Article>, svc: Services, i: nat)
    requires i < |articles| && Body(articles[i]).Some?
    requires NoneAbortedBefore(articles, svc, i)
    ensures NoneAbortedBefore(articles, svc, i + 1)
  {
    assert !ArticleRun(articles[i], svc).value.Aborted?;
  }

  /** What the loop has done after the first `i` articles: none of them
      raised outside its `try`, `results` holds their records and `calls`
      their calls, in order. */
  ghost predicate LoopDone(articles: seq<Article>, svc: Services, i: nat, results: seq<Record>, calls: seq<Call>)
    requires i <= |articles|
  {
    NoneAbortedBefore(articles, svc, i)
    && results == Survivors(Outcomes(articles, svc)[..i])
    && calls == Trace(articles[..i], svc)
  }

  /** One iteration whose `try` block ran keeps the loop's account. */
  lemma ProcessedStep(articles: seq<Article>, svc: Services, i: nat, results: seq<Record>, calls: seq<Call>,
                      body: string, record: Option<Record>, articleCalls: seq<Call>)
    requires i < |articles| && LoopDone(articles, svc, i, results, calls)
    requires Body(articles[i]) == Some(body)
    requires Run(record, articleCalls) == TryEnrich(articles[i], body, svc)
    ensures LoopDone(articles, svc, i + 1,
                     if record.Some? then results + [record.value] else results, calls + articleCalls)
  {
    ProcessedRun(articles[i], svc, body, record, articleCalls);
    NoneAbortedStep(articles, svc, i);
    TraceStep(articles, svc, i);
    SurvivorsStep(articles, svc, i);
  }

  /** An article whose normalisation raised is the first to do so, and the
      request fails after the calls of the articles before it. */
  lemma AbortedStep(articles: seq<Article>, svc: Services, i: nat, results: seq<Record>, calls: seq<Call>)
    requires i < |articles| && LoopDone(articles, svc, i, results, calls)
    requires Body(articles[i]).None?
    ensures Collect(Outcomes(articles, svc)) == ServerError
    ensures FirstAbortAt(articles, svc, i) && calls == Trace(articles[..i], svc)
  {
    assert Outcomes(articles, svc)[i].Aborted?;
  }

  /** When the loop has gone through every article, the request answers
      with the records of all the outcomes. */
  lemma CompletedBatch(articles: seq<Article>, svc: Services, results: seq<Record>, calls: seq<Call>)
    requires LoopDone(articles, svc, |articles|, results, calls)
    ensures Collect(Outcomes(articles, svc)) == Json(results)
    ensures calls == Trace(articles, svc)
  {
    var outs := Outcomes(articles, svc);
    forall j | 0 <= j < |outs|
      ensures !outs[j].Aborted?
    {
      assert outs[j] == ArticleRun(articles[j], svc).value;
    }
    assert outs[..|articles|] == outs;
    assert articles[..|articles|] == articles;
  }

  /** The handler's loop over the fetched articles. It answers with the
      records of the articles that went through, in input order, unless an
      article's normalisation raised; the outbound calls are those of the
      articles up to that one. */
  method GetNews(articles: seq<Article>, svc: Services) returns (res: Response, ghost calls: seq<Call>)
    ensures res == Collect(Outcomes(articles, svc))
    ensures res.Json? ==> calls == Trace(articles, svc)
    ensures res.ServerError? ==>
      exists k :: 0 <= k < |articles| && FirstAbortAt(articles, svc, k) && calls == Trace(articles[..k], svc)
  {
    var results: seq<Record> := [];
    calls := [];
    for i := 0 to |articles|
      invariant LoopDone(articles, svc, i, results, calls)
    {
      var article := articles[i];
      var rawContent := NormalizeContent(article);
      if rawContent.None? {
        AbortedStep(articles, svc, i, results, calls);
        return ServerError, calls;
      }
      var record, articleCalls := Attempt(article, rawContent.value, svc);
      ProcessedStep(articles, svc, i, results, calls, rawContent.value, record, articleCalls);
      calls := calls + articleCalls;
      if record.Some? {
        results := results + [record.value];
      }
    }
    CompletedBatch(articles, svc, results, calls);
    res := Json(results);
  }
}

=== FILE: news.dfy ===
/** The values the /news handlers work on: feed articles as they arrive from
    the news provider, the enriched records sent back to the caller, and the
    two outside services (translator and summariser) seen as functions whose
    every call either answers with text or raises. */
module News {

  datatype Option<T> = None | Some(value: T)

  /** A JSON value an article holds under one of its keys: a string or `null`. */
  datatype Value = Null | Str(s: string)

  /** One article dictionary from the feed. `None` means the key is absent,
      `Some(Null)` that it is present and holds `null`. */
  datatype Article = Article(
    title: Option<Value>,
    url: Option<Value>,
    image: Option<Value>,
    content: Option<Value>,
    description: Option<Value>)

  /** The dictionary built for an article that went through the whole
      pipeline: translated title, the source's `url` and `image` as they were,
      the translated body and the summary of that translated body. */
  datatype Record = Record(
    title: string,
    url: Value,
    image: Value,
    translated: string,
    summary: string)

  /** What one call to an outside service gives back: its text, or an
      exception (network error, error status, missing field in the answer). */
  datatype Reply = Text(text: string) | Raised

  /** One outbound call: a translation of the given argument, or a summary of
      the given text. */
  datatype Call = Translate(arg: Value) | Summarize(input: string)

  /** The translator and the summariser, as functions of their argument. */
  datatype Services = Services(translate: Value -> Reply, summarize: string -> Reply)

  /** A value together with the outbound calls made, in order, to compute it. */
  datatype Run<T> = Run(value: T, calls: seq<Call>)

  /** The reply the services give to a call. */
  function ReplyTo(c: Call, svc: Services): Reply
  {
    match c
    case Translate(v) => svc.translate(v)
    case Summarize(t) => svc.summarize(t)
  }
}

=== FILE: normalizer.dfy ===
/** Body normalisation: the text of an article that is sent to the
    translator. Both handlers run the same steps before their `try`:
    start from the content (absent, `null` or empty reads as ""), fall back
    to `description + " " + title` when the content carries the provider's
    "[+N chars]" truncation marker or is shorter than 200 characters, and
    cut the result to its first 4900 characters. */
module Normalizer {
  import opened News

  /** The provider's marker for a body it cut short. */
  const TruncationMarker: string := "[+"
  /** Content shorter than this is replaced by the fallback text. */
  const MinContentLength: nat := 200
  /** The translator's request-size ceiling. */
  const MaxBodyLength: nat := 4900

  function Min(x: int, y: int): int
  {
    if x <= y then x else y
  }

  /** `pat` occurs in `s` starting at position `i`. */
  predicate OccursAt(s: string, pat: string, i: nat)
    requires i + |pat| <= |s|
  {
    s[i..i + |pat|] == pat
  }

  /** `pat in s` on strings: `pat` occurs somewhere in `s`. */
  predicate Contains(s: string, pat: string)
  {
    exists i: nat :: i + |pat| <= |s| && OccursAt(s, pat, i)
  }

  /** `article.get("content") or ""`: an absent, `null` or empty content
      all read as the empty string. */
  function ContentText(a: Article): (r: string)
    ensures r == "" <==> a.content.None? || a.content == Some(Null) || a.content == Some(Str(""))
    ensures a.content.Some? && a.content.value.Str? ==> r == a.content.value.s
  {
    match a.content
    case Some(Str(s)) => s
    case _ => ""
  }

  /** The content is not used as it is: it was cut by the provider, or it is
      too short to be a body. */
  predicate NeedsFallback(content: string)
  {
    Contains(content, TruncationMarker) || |content| < MinContentLength
  }

  /** `article.get(key, "")` as an operand of `+`: an absent key reads as "",
      a key holding `null` gives `None` (the concatenation raises). */
  function FieldText(f: Option<Value>): (r: Option<string>)
    ensures r.None? <==> f == Some(Null)
    ensures f.None? ==> r == Some("")
    ensures f.Some? && f.value.Str? ==> r == Some(f.value.s)
  {
    match f
    case None => Some("")
    case Some(Str(s)) => Some(s)
    case Some(Null) => None
  }

  /** `description + " " + title`, or `None` when the concatenation raises
      because one of the two holds `null`. */
  function FallbackText(a: Article): (r: Option<string>)
    ensures r.None? <==> a.description == Some(Null) || a.title == Some(Null)
    ensures r.Some? ==>
      |r.value| == |FieldText(a.description).value| + 1 + |FieldText(a.title).value|
      && r.value[..|FieldText(a.description).value|] == FieldText(a.description).value
      && r.value[|FieldText(a.description).value|] == ' '
      && r.value[|FieldText(a.description).value| + 1..] == FieldText(a.title).value
  {
    match (FieldText(a.description), FieldText(a.title))
    case (Some(d), Some(t)) => Some(d + " " + t)
    case _ => None
  }

  /** `s[:4900]` applied when `s` is longer than 4900 characters. */
  function Truncate(s: string): (r: string)
    ensures |r| == Min(|s|, MaxBodyLength)
    ensures r <= s
    ensures |s| <= MaxBodyLength ==> r == s
  {
    if |s| > MaxBodyLength then s[..MaxBodyLength] else s
  }

  /** The normalised body of an article, or `None` when computing it raises
      (the fallback met a `null` description or title). */
  function Body(a: Article): (r: Option<string>)
    ensures r.Some? ==> |r.value| <= MaxBodyLength
  {
    var content := ContentText(a);
    if NeedsFallback(content) then
      match FallbackText(a)
      case None => None
      case Some(t) => Some(Truncate(t))
    else
      Some(Truncate(content))
  }

  /** The normalisation steps as the handlers run them, reassigning the raw
      content step by step; `None` is the `TypeError` of the concatenation. */
  method NormalizeContent(a: Article) returns (body: Option<string>)
    ensures body == Body(a)
  {
    var rawContent := ContentText(a);
    if Contains(rawContent, TruncationMarker) || |rawContent| < MinContentLength {
      var description := FieldText(a.description);
      var title := FieldText(a.title);
      if description.None? || title.None? {
        return None;
      }
      rawContent := description.value + " " + title.value;
    }
    if |rawContent| > MaxBodyLength {
      rawContent := rawContent[..MaxBodyLength];
    }
    return Some(rawContent);
  }

  /** Content that carries the marker or is short is discarded: the body is
      the longest prefix of `description + " " + title` that fits, whatever
      the content held. */
  lemma FallbackBody(a: Article, d: string, t: string)
    requires NeedsFallback(ContentText(a))
    requires FieldText(a.description) == Some(d) && FieldText(a.title) == Some(t)
    ensures Body(a).Some?
    ensures Body(a).value <= d + " " + t
    ensures |Body(a).value| == Min(|d| + 1 + |t|, MaxBodyLength)
  {
  }

  /** Two articles with the same description and title whose contents are
      both discarded get the same body. */
  lemma FallbackIgnoresContent(a: Article, b: Article)
    requires NeedsFallback(ContentText(a)) && NeedsFallback(ContentText(b))
    requires a.description == b.description && a.title == b.title
    ensures Body(a) == Body(b)
  {
  }

  /** Content of 200 characters or more without the marker is kept: the body
      is its longest prefix that fits, and the content itself when it fits. */
  lemma ContentBody(a: Article)
    requires |ContentText(a)| >= MinContentLength
    requires !Contains(ContentText(a), TruncationMarker)
    ensures Body(a).Some?
    ensures Body(a).value <= ContentText(a)
    ensures |Body(a).value| == Min(|ContentText(a)|, MaxBodyLength)
    ensures |ContentText(a)| <= MaxBodyLength ==> Body(a) == Some(ContentText(a))
  {
  }

  /** A missing, `null` or empty content always takes the fallback. */
  lemma MissingContentFallsBack(a: Article)
    requires a.content == None || a.content == Some(Null) || a.content == Some(Str(""))
    ensures NeedsFallback(ContentText(a))
    ensures Body(a) == match FallbackText(a) case None => None case Some(t) => Some(Truncate(t))
  {
  }

  /** Normalisation raises exactly when the fallback is taken and the
      description or the title holds `null`; an absent key never raises. */
  lemma BodyRaisesIff(a: Article)
    ensures Body(a).None? <==>
      NeedsFallback(ContentText(a)) && (a.description == Some(Null) || a.title == Some(Null))
  {
  }

  /** A short content is discarded for the description and the title. */
  lemma ShortContentExample()
    ensures Body(Article(Some(Str("Title")), None, None, Some(Str("Short")), Some(Str("Desc text"))))
      == Some("Desc text Title")
  {
    assert "Desc text" + " " + "Title" == "Desc text Title";
  }

  /** A 5000-character content without the marker is cut to its first 4900
      characters. */
  lemma LongContentExample()
    ensures Body(Article(Some(Str("T")), None, None, Some(Str(seq(5000, _ => 'X'))), Some(Str(""))))
      == Some(seq(4900, _ => 'X'))
  {
    var s: string := seq(5000, _ => 'X');
    forall i: nat | i + |TruncationMarker| <= |s|
      ensures !OccursAt(s, TruncationMarker, i)
    {
      assert s[i..i + |TruncationMarker|][0] == 'X';
    }
    assert s[..MaxBodyLength] == seq(4900, _ => 'X');
  }
}

=== FILE: quart_backend.dfy ===
/** The concurrent /news handler: `process_article` normalises the body,
    then inside a `try` gathers the translations of the title and of the
    body, summarises the translated body and returns the record, or `None`
    when anything in the `try` raised; the handler gathers every article's
    result and keeps the records. `asyncio.gather` returns results in
    argument order and the articles share no state, so the batch is the
    per-article function mapped over the articles, in order. */
module QuartBackend {
  import opened News
  import opened Normalizer
  import opened Enrichment
  import opened Batch
  import FlaskBackend

  /** The `try` block of `process_article` for normalised body `body`. Once
      the title key is found both translations are issued together, so the
      body is translated even when the title translation fails; the
      summariser runs only when both answered. */
  function TryEnrich(a: Article, body: string, svc: Services): (r: Run<Option<Record>>)
    ensures r.value.Some? <==> CanComplete(a, body, svc)
    ensures r.value.Some? ==> IsRecordFor(r.value.value, a, body, svc)
  {
    if a.title.None? then Run(None, [])
    else
      var title := svc.translate(a.title.value);
      var translated := svc.translate(Str(body));
      var gathered := [Translate(a.title.value), Translate(Str(body))];
      if title.Raised? || translated.Raised? then Run(None, gathered)
      else
        var summary := svc.summarize(translated.text);
        var calls := gathered + [Summarize(translated.text)];
        if summary.Raised? || a.url.None? || a.image.None? then Run(None, calls)
        else Run(Some(Record(title.text, a.url.value, a.image.value, translated.text, summary.text)), calls)
  }

  /** The calls of the `try` block: with a title key both translations are
      issued first, whatever they answer; the summariser only sees the
      translated body, and is called exactly when both translations answered;
      without a title key nothing is called. */
  lemma TryEnrichCalls(a: Article, body: string, svc: Services)
    ensures var calls := TryEnrich(a, body, svc).calls;
      SummarizesTranslatedBody(calls, a, body, svc)
      && (a.title.None? ==> calls == [])
      && (a.title.Some? ==> |calls| >= 2 && calls[..2] == [Translate(a.title.value), Translate(Str(body))])
      && |calls| <= 3
    ensures var calls := TryEnrich(a, body, svc).calls;
      a.title.Some? ==>
        (|calls| == 3 <==> svc.translate(a.title.value).Text? && svc.translate(Str(body)).Text?)
        && (|calls| == 3 ==> calls[2] == Summarize(svc.translate(Str(body)).text))
    ensures TryEnrich(a, body, svc).value.Some? ==> |TryEnrich(a, body, svc).calls| == 3
  {
  }

  /** `process_article`: the record, `None` (dropped), or the exception of
      the normalisation, which is outside the `try` and escapes. */
  function ProcessArticle(a: Article, svc: Services): (r: Run<Outcome>)
    ensures r.value.Aborted? <==> Body(a).None?
    ensures r.value.Enriched? <==> Body(a).Some? && CanComplete(a, Body(a).value, svc)
    ensures r.value.Enriched? ==> IsRecordFor(r.value.record, a, Body(a).value, svc)
  {
    match Body(a)
    case None => Run(Aborted, [])
    case Some(body) =>
      var r := TryEnrich(a, body, svc);
      Run(if r.value.Some? then Enriched(r.value.value) else Dropped, r.calls)
  }

  /** `await asyncio.gather(*tasks)`: every article's outcome, in argument order. */
  function Gather(articles: seq<Article>, svc: Services): (outs: seq<Outcome>)
    ensures |outs| == |articles|
  {
    seq(|articles|, i requires 0 <= i < |articles| => ProcessArticle(articles[i], svc).value)
  }

  /** The handler's answer: a server error when a `process_article` raised,
      otherwise the records among the gathered results. */
  function GetNews(articles: seq<Article>, svc: Services): (r: Response)
    ensures r.ServerError? <==> exists i :: 0 <= i < |articles| && Body(articles[i]).None?
    ensures r.Json? ==> |r.records| <= |articles|
  {
    GatherAborts(articles, svc);
    Collect(Gather(articles, svc))
  }

  /** A gathered result is an escaped exception exactly when that article's
      normalisation raised. */
  lemma GatherAborts(articles: seq<Article>, svc: Services)
    ensures forall i :: 0 <= i < |articles| ==> (Gather(articles, svc)[i].Aborted? <==> Body(articles[i]).None?)
  {
    forall i | 0 <= i < |articles|
      ensures Gather(articles, svc)[i].Aborted? <==> Body(articles[i]).None?
    {
      assert Gather(articles, svc)[i] == ProcessArticle(articles[i], svc).value;
    }
  }

  /** The two handlers give every article the same outcome: the `try` blocks
      differ only in which calls they make after a failure. */
  lemma SameOutcome(a: Article, svc: Services)
    ensures ProcessArticle(a, svc).value == FlaskBackend.ArticleRun(a, svc).value
  {
    match Body(a)
    case None =>
    case Some(body) =>
      var q := TryEnrich(a, body, svc);
      var f := FlaskBackend.TryEnrich(a, body, svc);
      if q.value.Some? {
        RecordIsDetermined(q.value.value, f.value.value, a, body, svc);
      }
  }

  /** The sequential and the concurrent handler answer every request alike. */
  lemma HandlersAgree(articles: seq<Article>, svc: Services)
    ensures GetNews(articles, svc) == Collect(FlaskBackend.Outcomes(articles, svc))
  {
    forall i | 0 <= i < |articles|
      ensures Gather(articles, svc)[i] == FlaskBackend.Outcomes(articles, svc)[i]
    {
      SameOutcome(articles[i], svc);
    }
    assert Gather(articles, svc) == FlaskBackend.Outcomes(articles, svc);
  }

  /** Isolation: an article's gathered result depends on that article alone,
      whatever else is on the page and wherever it stands. */
  lemma OutcomeIsOwn(page: seq<Article>, other: seq<Article>, i: nat, j: nat, svc: Services)
    requires i < |page| && j < |other| && page[i] == other[j]
    ensures Gather(page, svc)[i] == Gather(other, svc)[j]
  {
  }

  /** The answer lists exactly the records of the articles that went through,
      in input order: each record is the full record of the article at a
      strictly increasing position, and no article that went through is
      missing. */
  lemma RecordsInInputOrder(articles: seq<Article>, svc: Services) returns (idx: seq<nat>)
    requires GetNews(articles, svc).Json?
    ensures |idx| == |GetNews(articles, svc).records|
    ensures forall k :: 0 <= k < |idx| ==>
      (idx[k] < |articles| && Body(articles[idx[k]]).Some?
       && IsRecordFor(GetNews(articles, svc).records[k], articles[idx[k]], Body(articles[idx[k]]).value, svc))
    ensures forall k, l :: 0 <= k < l < |idx| ==> idx[k] < idx[l]
    ensures forall i :: 0 <= i < |articles| && ProcessArticle(articles[i], svc).value.Enriched? ==> i in idx
  {
    var outs := Gather(articles, svc);
    idx := SurvivorPositions(outs);
    var rs := GetNews(articles, svc).records;
    assert rs == Survivors(outs);
    forall k | 0 <= k < |idx|
      ensures idx[k] < |articles| && Body(articles[idx[k]]).Some?
        && IsRecordFor(rs[k], articles[idx[k]], Body(articles[idx[k]]).value, svc)
    {
      assert outs[idx[k]] == ProcessArticle(articles[idx[k]], svc).value;
    }
    forall i | 0 <= i < |articles| && ProcessArticle(articles[i], svc).value.Enriched?
      ensures i in idx
    {
      assert outs[i].Enriched?;
    }
  }

  /** No more records than articles, and exactly as many when every article
      goes through. */
  lemma RecordCount(articles: seq<Article>, svc: Services)
    requires GetNews(articles, svc).Json?
    ensures |GetNews(articles, svc).records| <= |articles|
    ensures |GetNews(articles, svc).records| == |articles| <==>
      forall i :: 0 <= i < |articles| ==> ProcessArticle(articles[i], svc).value.Enriched?
  {
    var outs := Gather(articles, svc);
    AllSurviveIff(outs);
    if forall i :: 0 <= i < |outs| ==> outs[i].Enriched? {
      forall i | 0 <= i < |articles|
        ensures ProcessArticle(articles[i], svc).value.Enriched?
      {
        assert outs[i].Enriched?;
      }
    }
  }

  /** An empty page gives an empty list. */
  lemma EmptyPage(svc: Services)
    ensures GetNews([], svc) == Json([])
  {
    EmptyBatch();
  }

  /** Leaving article `k` out of the page moves the results after it one
      place forward and changes none of them. */
  lemma GatherWithoutAt(articles: seq<Article>, svc: Services, k: nat, i: nat)
    requires k < |articles| && i < |articles| - 1
    ensures Gather(articles[..k] + articles[k + 1..], svc)[i]
      == Gather(articles, svc)[if i < k then i else i + 1]
  {
    var rest := articles[..k] + articles[k + 1..];
    if i < k {
      assert rest[i] == articles[i];
      OutcomeIsOwn(rest, articles, i, i, svc);
    } else {
      assert rest[i] == articles[i + 1];
      OutcomeIsOwn(rest, articles, i, i + 1, svc);
    }
  }

  /** Leaving an article out of the page leaves its result out of the
      gathered results and changes no other. */
  lemma GatherWithout(articles: seq<Article>, svc: Services, k: nat)
    requires k < |articles|
    ensures Gather(articles[..k] + articles[k + 1..], svc)
      == Gather(articles, svc)[..k] + Gather(articles, svc)[k + 1..]
  {
    var outs := Gather(articles, svc);
    var g := Gather(articles[..k] + articles[k + 1..], svc);
    var h := outs[..k] + outs[k + 1..];
    forall i | 0 <= i < |g|
      ensures g[i] == h[i]
    {
      GatherWithoutAt(articles, svc, k, i);
    }
    assert g == h;
  }

  /** Isolation: an article whose `try` failed leaves the answer exactly as
      if it had not been fetched; the other articles' records are untouched. */
  lemma DroppedArticleIsInvisible(articles: seq<Article>, svc: Services, k: nat)
    requires k < |articles| && ProcessArticle(articles[k], svc).value.Dropped?
    ensures GetNews(articles, svc) == GetNews(articles[..k] + articles[k + 1..], svc)
  {
    var outs := Gather(articles, svc);
    assert outs[k].Dropped?;
    DroppedIsInvisible(outs, k);
    GatherWithout(articles, svc, k);
  }

  /** A missing url or image drops the article even when every call answered. */
  lemma MissingUrlOrImageDrops(a: Article, svc: Services)
    requires Body(a).Some?
    requires a.url.None? || a.image.None?
    ensures ProcessArticle(a, svc).value.Dropped?
  {
  }
}
